=== FILE: README.md ===
# Key-selling bot: order flow and key approval, modelled in Dafny

This project models the core of a Telegram bot that sells subscription keys.
A buyer picks a duration (`buy:<duration>`) and a device count (`device:<n>`),
is shown the price, pays outside the bot and submits a transaction id with
`/tx <id>`. The bot forwards the order to the admin. The admin then issues a key with
`/approve <userId> <key>`. That writes the key to two stores and tells the user.
The admin can also send `/broadcast <text>` to every stored user.

Every handler is a pure step function over one state:

- **the pending order.** One optional `Order(duration, devices)`, shared by every user.
  The bot keeps it on the single session object that all chat contexts inherit.
- **Store A.** The realtime database. An approval pushes a record onto the node that the path `keys/<userId>` addresses.
  The database splits a path at `/` and drops empty pieces, so Store A is keyed by the resulting node path.
- **Store B.** The `users` document collection. Each document has a `telegram_id` and a
  `key_history` array, and approvals upsert into it with `$push`.

A step returns the new state, the messages sent in the order the handler sends them,
and an outcome. Calls that can throw take a parameter that says whether they fail:

- the admin message of `/tx` (`adminDelivers`);
- each awaited stage of `/approve` (`fault`);
- each recipient of a broadcast (`failing`).

Modules:

- `Wrappers`: `Option`, used for JavaScript's `undefined`.
- `Decimal`: `String(n)` and `Number(digits)`.
- `Tokens`: `split(" ")` / `join(" ")`.
- `Pricing`: the `KEY_PRICE` table.
- `Stores`: Store A and Store B.
- `Bot`: the handlers.
- `Runs`: routing of updates, and runs of many updates. The routing is the bot's,
  except that "My Keys" goes to the corrected lookup `Bot.MyKeys` (see Findings).

Facts about the code that a reader might not expect. The model follows the code in each:

- `device:<n>` with no pending order is a fault answered by the bot-wide handler
  ("Something went wrong"), not a "no active order" reply.
- `/tx` after a duration but before a device count is not refused. The admin is told
  the order with its device count undefined.
- The pending order is global, not per user (`Bot.OrderSharedAcrossUsers`).
- The device count is any number the callback's digits spell, not only 1 to 3.
- `/approve` gives the admin a generic error. It does not say which stage failed.
  The model's `Failed(stage)` outcome records the stage, but no message carries it.
- Wallet credit, referral credit and withdrawal do not exist in the code, so they are not modelled.

## Model

| member | source | states |
|---|---|---|
| Decimal.Render | bot.js:193 | `String(n)` is a canonical numeral (digits, no leading zero), and it is "0" exactly for 0; `ValueOfRender` and `RenderMatches` pin it down as the inverse of `Number` |
| Decimal.ValueZero | bot.js:114 | `Number(digits)` is 0 exactly when every digit is '0' (the empty string included); `RenderOfValue` pins `Number` down as the inverse of `String` on canonical numerals |
| Decimal.ValueOfRender | bot.js:193 | reading back `String(n)` as a number gives `n` |
| Decimal.RenderOfValue | bot.js:114 | a canonical digit string is what `String(Number(s))` prints again |
| Decimal.RenderMatches | bot.js:193 | `String(n)` equals a string `s` exactly when `s` is a canonical numeral whose value is `n` |
| Decimal.RenderInjective | bot.js:193 | two ids have equal strings exactly when the ids are equal |
| Tokens.Split | bot.js:194 | `split(" ")` yields one more token than there are spaces, and no token contains a space |
| Tokens.Join | bot.js:214 | `join(" ")` starts with the first token, followed by a space when there are more; `JoinSplit` and `SplitJoin` pin it down as the inverse of `split(" ")` |
| Tokens.JoinSplit | bot.js:214 | joining the tokens of a split with single spaces gives back the original text |
| Tokens.SplitJoin | bot.js:214 | splitting the join of space-free tokens gives back the tokens |
| Tokens.SecondToken | bot.js:137 | `split(" ")[1]` is undefined without a space, else the word right after the first space |
| Tokens.RestIsAfterFirstSpace | bot.js:214 | `split(" ").slice(1).join(" ")` is exactly the text after the first space ("" if none) |
| Tokens.TailTokens | bot.js:194-196 | the tokens after the first are the split of the text after the first space; a text without spaces is one token |
| Tokens.FirstTokenIsFirstWord | bot.js:194 | the first token is the text up to the first space |
| Pricing.Price | bot.js:118 | a price exists exactly for the durations in the table, and equals base price times devices |
| Pricing.DefaultPriceValues | bot.js:17-21 | with the default table, 7, 15 and 30 days cost 100, 180 and 300 per device; any other duration has no price |
| Pricing.PriceIncreasing | bot.js:118 | for a positive base price, more devices always cost strictly more |
| Pricing.PriceAdditive | bot.js:118 | the price of `a + b` devices is the price of `a` plus the price of `b` |
| Stores.Pieces | bot.js:199 | the pieces of a database path are non-empty and contain no `/` |
| Stores.PiecesConcat | bot.js:199 | the pieces of `a/b` are the pieces of `a` followed by the pieces of `b` |
| Stores.PiecesOfName | bot.js:199 | a name without `/` is a single piece, and the empty name is no piece |
| Stores.NodeOf | bot.js:199 | `keys/${userId}` addresses the node `keys` followed by the pieces of the user id |
| Stores.NodeOfName | bot.js:199 | a user id without `/` addresses its own child of `keys`; the empty id addresses `keys` itself |
| Stores.NodeOfTrailingSlash | bot.js:199 | a user id with a trailing `/` addresses the same node as the id without it |
| Stores.PushRecord | bot.js:199-200 | a push adds exactly one record at the end of the node the user id addresses, and changes no other node |
| Stores.HistoryOfMissing | bot.js:159-160 | `findOne({telegram_id: id})?.key_history \|\| []` is empty when no document has that id |
| Stores.HistoryOfFirstMatch | bot.js:159-160 | `findOne({telegram_id: id})` returns the first document with that id, so the history read is that document's |
| Stores.PushHistory | bot.js:204 | the upsert appends exactly one record to the end of that id's history, creating the document if absent, and changes no other history |
| Stores.PushHistoryIds | bot.js:204 | the upsert adds the id to the stored ids, adding a document exactly when the id was absent |
| Stores.PushHistoryKeepsUnique | bot.js:204 | the upsert never creates a second document for an id |
| Stores.PushHistoryKeepsStringIds | bot.js:204 | upserting under a string id keeps every stored id a string |
| Bot.IsAdmin | bot.js:193 | the admin check admits exactly the sender whose id the configured string spells, and nobody when that string is not a canonical numeral |
| Bot.ChooseDuration | bot.js:98-103 | choosing a duration replaces the whole pending order with that duration and no devices, leaves both stores alone and asks for the device count |
| Bot.ChooseDevices | bot.js:113-131 | choosing devices never touches either store and sends one reply to the sender only. With no pending order it is a fault with no state change. Otherwise the duration is kept, the count is set, and the summary shows the QR image, the table price and the UPI id |
| Bot.FreshBotDevicesFault | bot.js:113-115 | on a freshly started bot, a device count before any duration is a fault and leaves no order |
| Bot.DurationThenDevices | bot.js:98-118 | a duration then a device count leaves exactly that order pending and quotes `KEY_PRICE[duration] * devices`, or no price for an unknown duration |
| Bot.SubmitTx | bot.js:136-151 | `/tx` never changes the pending order or either store |
| Bot.SubmitTxUsage | bot.js:137-138 | the reply is the usage hint exactly when the id after the first space is missing or empty, whatever the order |
| Bot.SubmitTxNoOrder | bot.js:140-141 | with an id but no order: "no active order", and nothing goes to the admin |
| Bot.SubmitTxNotifiesAdmin | bot.js:143-150 | with an id and an order: exactly one admin message with the buyer's first name and id, duration, devices and transaction id, then the buyer's confirmation |
| Bot.OrderSharedAcrossUsers | bot.js:54 | an order chosen by anyone is reported by the next `/tx` from any other user, under that user's id |
| Bot.Approve | bot.js:192-209 | a non-admin sender gets "Unauthorized" with no writes; fewer than 3 tokens gets usage with no writes; otherwise token 1 is the user and token 2 the key. Store A (on the node `keys/<user>` addresses), then Store B (under the string id), then the user message, then the confirmation: each completed stage's effect stays when a later one fails, the failing and later stages have no effect, and the admin gets the error reply |
| Bot.ApproveSucceeds | bot.js:196-207 | an admin `/approve` with a user and a key, and no failure, writes one record to each store, sends the key to the user and confirms to the admin |
| Bot.WritesKeepCountsEqual | bot.js:199-204 | when both writes of an approval for `u` happened, the user's Store A node and Store B history gain equally many records, unless `u` reaches that node by another token |
| Bot.UpsertFailureLeavesStoreAAhead | bot.js:199-208 | when the Store B upsert throws after the Store A push, Store A's node for the user has one more record and the user's Store B history is unchanged |
| Bot.ApproveTwiceAppendsTwice | bot.js:197-204 | approving the same key twice writes two records to each store |
| Bot.WritesSplitAtTrailingSlash | bot.js:199-204 | for an id ending in `/`, Store A's node for the id without it gains the record and Store B's history under that shorter id is unchanged |
| Bot.ApproveTrailingSlash | bot.js:199-204 | `/approve 5/ K` puts the record on Store A's node for `5`, while Store B files it under the distinct id `"5/"` and the history of `"5"` is unchanged |
| Bot.Deliveries | bot.js:218-219 | the fan-out sends only the broadcast text, at most once per stored user, and reaches exactly the stored users whose delivery does not fail |
| Bot.Broadcast | bot.js:212-221 | a non-admin gets "Unauthorized"; the text is everything after the first space; an empty text gets usage; otherwise the text is sent and the reported count is the number of stored users; no store changes |
| Bot.BroadcastCountIgnoresFailures | bot.js:219-220 | the reported count is the same whichever deliveries fail, and the recipients are the stored users minus the failing ones |
| Bot.MyKeysAsWritten | bot.js:156-161 | "My Keys" as written answers with the history stored under the numeric sender id: "no keys yet" exactly when that history is empty, else the listing of it |
| Bot.MyKeys | bot.js:156-165 | "My Keys" by `String(ctx.from.id)` answers "no keys yet" exactly when the history under that string is empty, else lists that history; nothing changes |
| Bot.MyKeysAsWrittenFindsNothing | bot.js:159-161 | while every stored id is a string, "My Keys" as written answers "no keys" to everyone |
| Bot.ApprovedKeyHiddenAsWritten | bot.js:156-161 | after the admin approves a key for user `u`, Store B holds it under `String(u)`, yet "My Keys" as written tells `u` there are none |
| Bot.ApprovedKeyVisible | bot.js:156-165 | looking up by `String(ctx.from.id)`, the user is listed every key approved for them, the newest last |
| Runs.Handle | bot.js:98-221 | only `/approve` can change a store, and not from a non-admin; only the two callbacks change the pending order; a device callback whose text is not digits matches no handler |
| Runs.RunGrows | bot.js:197-204 | over any sequence of updates, every Store A node's records and every Store B history only grow at the end |
| Runs.RunWellFormed | bot.js:204 | no sequence of updates gives a user two documents or a non-string id |
| Runs.RunWithoutAdminWritesNothing | bot.js:193 | if the admin sends nothing, neither store changes |
| Runs.RunWithoutAdminSendsOnlyToAdmin | bot.js:144-148 | if the admin sends nothing, every message to another chat is a payment notice to the admin |
| Runs.HandleKeepsCountsEqual | bot.js:197-208 | one update adds equally many records to the user's Store A node and Store B history, unless it is an approval whose Store B upsert fails or that names the user's node by another token. A failure at Store A writes nothing, and a failed user message or confirmation comes after both writes |
| Runs.StoresAgreeUnlessUpsertFails | bot.js:197-208 | over any run, the user gains as many Store A records as Store B history entries, unless some approval's Store B upsert fails or names the user's Store A node by a different token (such as `5/` for `5`). Only a failed upsert makes the counts differ |
| Runs.RunOne | bot.js:98-221 | a single update's run is exactly that handler's step |
| Runs.RunConcat | bot.js:98-221 | running two lists of updates back to back is running the first, then the second from the state the first left, with their messages concatenated |
| Runs.RunFour | bot.js:98-221 | four updates in a row are handled one after another, each on the state the previous left, and their messages are concatenated |
| Runs.PurchaseScenario | bot.js:98-207 | buy, device, `/tx` and `/approve` in a row send exactly the prompt, the priced summary, the admin notice, the confirmation, the key and the approval, and write one record to each store |

## Findings

| source | as written | input that shows it | evidently intended | confidence | as-written member | corrected member |
|---|---|---|---|---|---|---|
| bot.js:159 | "My Keys" looks the user up with the numeric `ctx.from.id`. `/approve` stores `telegram_id` as the string token (bot.js:204), and the document store does not match a string against a number | admin sends `/approve 555 KEY-XYZ`; user 555 taps "My Keys" and is told "You have no keys yet" | the user is listed the keys approved for them | high; not executed | Bot.ApprovedKeyHiddenAsWritten | Bot.ApprovedKeyVisible |

`Bot.MyKeysAsWritten` is the lookup as the code does it. `Bot.MyKeys` looks up by
`String(ctx.from.id)`, and the event routing in `Runs` uses that one.

## Left out

- Telegram transport: keyboards, Markdown captions, photo upload and message wording. Each message is modelled by the values it interpolates: the order summary carries the QR image URL, duration, devices, price and UPI id; the admin notice carries the buyer's first name and id, the order and the transaction id.
- The date shown beside each key in the "My Keys" listing (bot.js:164). Timestamps are not modelled, so `Bot.KeyListing` carries only the records.
- The `/start`, "Buy Key" menu, Settings, Wallet and Referral handlers (bot.js:59-96, 73-82, 171-185). They only display text.
- Failures of replies to the sender, other than the confirmation inside `/approve`. These are assumed to be delivered.
- Firebase and MongoDB clients and `getDb` caching. A failure to connect in `/approve` is the Store B stage failing.
- Firebase's rejection of invalid path characters in the user id (`.`, `#`, `$`, `[`, `]`, and the ASCII control characters U+0000 to U+001F and U+007F). It is covered by the Store A stage failing. Path normalisation at `/` is modelled; records pushed onto a node are kept apart from those of its children (a `5/x` token writes a child of `5`'s node).
- A failing read of Store B in `/broadcast` and "My Keys". This falls to the bot-wide handler and is not modelled.
- Timestamps (`created_at`, `date`). They are non-deterministic, so records hold only the key and the active flag.
- Environment loading and `Number(...)` of config values. The admin id is the string `String(ADMIN_ID)`, and the price table is a `map<string, int>` parameter.
- `ADMIN_ID` unset. The guard then compares with "undefined", and the admin message of `/tx` cannot be delivered (`adminDelivers` false).
- The callback-data patterns `buy:(.+)` and `device:(\d+)`. The model takes the captured text as given.
- `Number` of very long digit strings. These lose precision in JavaScript, and the model's value is exact.
- Bot.Deliveries: the sends happen concurrently and unawaited in the code. The model lists them in the order of the collection as the model holds it, before the count reply. `find({})` has no sort, so MongoDB promises no order, and the model says nothing about arrival order.
- Concurrent handling of updates. Telegraf does not wait for one handler to finish before starting the next, and each handler yields at every `await`. Two `/approve` commands can therefore interleave between the Store A push (bot.js:200) and the Store B upsert (bot.js:204), and the two stores can then hold the records in different orders. `Runs.Run` applies updates one at a time, each to completion; its results hold only for such serial runs.
- Bot launch and signal handling (bot.js:234-236).

=== FILE: bot.dfy ===
/**
 The purchase-order state machine and the admin commands of the key-selling bot.

 Every handler is a pure step from a `State` to a `Step`: the new state, the
 messages sent (in the order the handler sends them) and an outcome. The pending
 order is a single value shared by every user, because the bot keeps it on one
 session object that all chat contexts inherit.
 */
module Bot {
  import opened Wrappers
  import opened Tokens
  import Decimal
  import Pricing
  import opened Stores

  /**
   What the bot reads at startup: `String(ADMIN_ID)` ("undefined" when unset),
   the price table, the UPI id payments go to and the URL of the QR image.
   */
  datatype Config = Config(adminId: string, prices: map<string, int>, upiId: string, qrImageUrl: string)

  /** The order being built: the chosen duration and, once chosen, the device count. */
  datatype Order = Order(duration: string, devices: Option<nat>)

  datatype State = State(pending: Option<Order>, storeA: Realtime, storeB: Documents)

  /** A freshly started bot: the session object is empty, whatever the two stores already hold. */
  function Start(storeA: Realtime, storeB: Documents): State {
    State(None, storeA, storeB)
  }

  /**
   The content of a message: the values it shows, without wording or layout.
   A key listing shows each key and its active flag; the date beside it is not modelled.
   */
  datatype Body =
    | DevicePrompt
    | OrderSummary(qrImageUrl: string, duration: string, devices: nat, price: Option<int>, upiId: string)
    | TxUsageHint
    | NoActiveOrderNotice
    | TxReceivedNotice
    | PaymentNotice(buyerName: string, buyer: nat, order: Order, txId: string)
    | UnauthorizedNotice
    | ApproveUsageHint
    | KeyNotice(key: string)
    | ApprovedNotice(user: string)
    | ApproveErrorNotice
    | BroadcastUsageHint
    | BroadcastMessage(text: string)
    | BroadcastReport(count: nat)
    | NoKeysNotice
    | KeyListing(keys: seq<KeyRecord>)
    | FaultNotice

  /** `Reply` answers the chat the update came from; `Send` goes to the chat with the given id. */
  datatype Outbound = Reply(body: Body) | Send(chat: string, body: Body)

  /** The awaited calls inside `/approve`, in the order they run; any of them may throw. */
  datatype Stage = StoreAPush | StoreBUpsert | UserNotify | AdminConfirm

  /**
   How a handler ended. `Fault` is an exception caught by the bot-wide handler;
   `Failed` one caught inside `/approve`; `Ignored` an update no handler matches.
   */
  datatype Outcome = Done | Usage | NoOrder | Denied | Fault | Failed(stage: Stage) | Ignored

  datatype Step = Step(state: State, out: seq<Outbound>, outcome: Outcome)

  /**
   `String(ctx.from.id) === String(ADMIN_ID)`: it lets through exactly the sender
   whose id the configured string spells, and nobody if that string is not a
   plain numeral.
   */
  function IsAdmin(cfg: Config, sender: nat): (admitted: bool)
    ensures admitted <==> Decimal.Canonical(cfg.adminId) && sender == Decimal.Value(cfg.adminId)
  {
    Decimal.RenderMatches(sender, cfg.adminId);
    Decimal.Render(sender) == cfg.adminId
  }

  /** The message list sends nothing to any chat other than the one the update came from. */
  predicate RepliesOnly(out: seq<Outbound>) {
    forall i :: 0 <= i < |out| ==> out[i].Reply?
  }

  // ------------------------------------------------------------ buy:<duration>

  /**
   `buy:<duration>`: start a new order for that duration and ask for the device
   count. The whole order is replaced: any earlier duration or device count is
   gone, and the stores are untouched.
   */
  function ChooseDuration(st: State, duration: string): (r: Step)
    ensures r.state.pending == Some(Order(duration, None))
    ensures r.state.storeA == st.storeA && r.state.storeB == st.storeB
    ensures r.out == [Reply(DevicePrompt)]
  {
    Step(st.(pending := Some(Order(duration, None))), [Reply(DevicePrompt)], Done)
  }

  // ------------------------------------------------------------ device:<n>

  /**
   `device:<n>`: record the device count on the pending order and show the
   price with the QR image and the UPI id. With no pending order,
   `ctx.session.buy.devices = ...` throws and the bot-wide handler answers
   instead, with nothing changed. Otherwise the duration is kept, the count is
   set and the table price is quoted.
   */
  function ChooseDevices(cfg: Config, st: State, devices: nat): (r: Step)
    ensures r.state.storeA == st.storeA && r.state.storeB == st.storeB
    ensures RepliesOnly(r.out) && |r.out| == 1
    ensures st.pending.None? ==> r == Step(st, [Reply(FaultNotice)], Fault)
    ensures st.pending.Some? ==>
      var d := st.pending.value.duration;
      && r.state.pending == Some(Order(d, Some(devices)))
      && r.out == [Reply(OrderSummary(cfg.qrImageUrl, d, devices, Pricing.Price(cfg.prices, d, devices), cfg.upiId))]
  {
    match st.pending
    case None =>
      Step(st, [Reply(FaultNotice)], Fault)
    case Some(o) =>
      var price := Pricing.Price(cfg.prices, o.duration, devices);
      Step(st.(pending := Some(o.(devices := Some(devices)))),
           [Reply(OrderSummary(cfg.qrImageUrl, o.duration, devices, price, cfg.upiId))], Done)
  }

  /** On a freshly started bot, a device count before any duration is a fault, never an order. */
  lemma FreshBotDevicesFault(cfg: Config, storeA: Realtime, storeB: Documents, devices: nat)
    ensures ChooseDevices(cfg, Start(storeA, storeB), devices).outcome == Fault
    ensures ChooseDevices(cfg, Start(storeA, storeB), devices).state.pending.None?
  {
  }

  /** A duration followed by a device count leaves exactly that order pending and quotes `KEY_PRICE[duration] * devices`. */
  lemma DurationThenDevices(cfg: Config, st: State, duration: string, devices: nat)
    ensures var r := ChooseDevices(cfg, ChooseDuration(st, duration).state, devices);
      && r.outcome == Done
      && r.state.pending == Some(Order(duration, Some(devices)))
      && r.out == [Reply(OrderSummary(cfg.qrImageUrl, duration, devices,
                     if duration in cfg.prices then Some(cfg.prices[duration] * devices) else None, cfg.upiId))]
  {
  }

  // ------------------------------------------------------------ /tx <id>

  /**
   `/tx <id>`: the transaction id is the second space-separated token. A
   missing or empty id gets the usage hint before the order is even looked at;
   no pending order gets the "no active order" answer; otherwise the admin is
   told the order and the id and the buyer gets a confirmation. The order is
   read, never changed. `adminDelivers` says whether the message to the admin
   goes through; when it does not, the bot-wide handler answers.
   */
  function SubmitTx(cfg: Config, st: State, buyer: nat, buyerName: string, text: string, adminDelivers: bool): (r: Step)
    ensures r.state == st
  {
    var txId := Token(Split(text), 1);
    if txId.None? || txId.value == "" then
      Step(st, [Reply(TxUsageHint)], Usage)
    else if st.pending.None? then
      Step(st, [Reply(NoActiveOrderNotice)], NoOrder)
    else if !adminDelivers then
      Step(st, [Reply(FaultNotice)], Fault)
    else
      var o := st.pending.value;
      Step(st, [Send(cfg.adminId, PaymentNotice(buyerName, buyer, o, txId.value)),
                Reply(TxReceivedNotice)], Done)
  }

  /** The transaction id `/tx` reads: the word right after the first space ("" when the text has two spaces in a row there). */
  function TxIdOf(text: string): Option<string> {
    if Space in text then Some(FirstWord(AfterFirstSpace(text))) else None
  }

  /** With no usable id the answer is the usage hint and nothing else, whatever the order. */
  lemma SubmitTxUsage(cfg: Config, st: State, buyer: nat, buyerName: string, text: string, adminDelivers: bool)
    ensures var r := SubmitTx(cfg, st, buyer, buyerName, text, adminDelivers);
      (TxIdOf(text).None? || TxIdOf(text) == Some("")) <==> r.out == [Reply(TxUsageHint)]
  {
    SecondToken(text);
  }

  /** With an id but no order: "no active order", and nothing goes to the admin. */
  lemma SubmitTxNoOrder(cfg: Config, st: State, buyer: nat, buyerName: string, text: string, adminDelivers: bool)
    requires TxIdOf(text).Some? && TxIdOf(text) != Some("")
    requires st.pending.None?
    ensures SubmitTx(cfg, st, buyer, buyerName, text, adminDelivers).out == [Reply(NoActiveOrderNotice)]
  {
    SecondToken(text);
  }

  /** With an id and an order: exactly one message to the admin naming buyer, duration, devices and id, then the buyer's confirmation. */
  lemma SubmitTxNotifiesAdmin(cfg: Config, st: State, buyer: nat, buyerName: string, text: string)
    requires TxIdOf(text).Some? && TxIdOf(text) != Some("")
    requires st.pending.Some?
    ensures var o := st.pending.value;
      SubmitTx(cfg, st, buyer, buyerName, text, true).out ==
        [Send(cfg.adminId, PaymentNotice(buyerName, buyer, o, TxIdOf(text).value)),
         Reply(TxReceivedNotice)]
  {
    SecondToken(text);
  }

  /** The order is shared: whoever chose it, the next `/tx` from anyone reports it under that sender's id. */
  lemma OrderSharedAcrossUsers(cfg: Config, st: State, duration: string, other: nat, otherName: string, text: string)
    requires TxIdOf(text).Some? && TxIdOf(text) != Some("")
    ensures SubmitTx(cfg, ChooseDuration(st, duration).state, other, otherName, text, true).out[0] ==
      Send(cfg.adminId, PaymentNotice(otherName, other, Order(duration, None), TxIdOf(text).value))
  {
    SubmitTxNotifiesAdmin(cfg, ChooseDuration(st, duration).state, other, otherName, text);
  }

  // ------------------------------------------------------------ /approve <user> <key>

  /** Store A gained exactly one active record for `key` on the node `keys/<user>` addresses, and no other node changed. */
  ghost predicate WroteA(before: Realtime, after: Realtime, user: string, key: string) {
    && Log(after, NodeOf(user)) == Log(before, NodeOf(user)) + [Issued(key)]
    && forall node :: node != NodeOf(user) ==> Log(after, node) == Log(before, node)
  }

  /** Store B's history for the string id `user` gained exactly one active record for `key` at its end, and no other history changed. */
  ghost predicate WroteB(before: Documents, after: Documents, user: string, key: string) {
    && History(after, StrId(user)) == History(before, StrId(user)) + [Issued(key)]
    && forall id :: id != StrId(user) ==> History(after, id) == History(before, id)
  }

  /**
   `/approve <user> <key>`: the admin guard, then at least three tokens, then
   the push to Store A, the upsert into Store B, the message to the user and the
   confirmation to the admin, in that order. Further tokens are ignored. The
   first of these calls to throw (`fault`) stops the rest; what was already
   written stays, and the admin gets the generic error answer.
   */
  function Approve(cfg: Config, st: State, sender: nat, text: string, fault: Option<Stage>): (r: Step)
    ensures r.state.pending == st.pending
    ensures !IsAdmin(cfg, sender) ==> r == Step(st, [Reply(UnauthorizedNotice)], Denied)
    ensures IsAdmin(cfg, sender) && Spaces(text) < 2 ==> r == Step(st, [Reply(ApproveUsageHint)], Usage)
    ensures IsAdmin(cfg, sender) && Spaces(text) >= 2 ==>
      var user := Split(text)[1];
      var key := Split(text)[2];
      match fault
      case None =>
        && WroteA(st.storeA, r.state.storeA, user, key)
        && WroteB(st.storeB, r.state.storeB, user, key)
        && r.out == [Send(user, KeyNotice(key)), Reply(ApprovedNotice(user))]
        && r.outcome == Done
      case Some(StoreAPush) =>
        r == Step(st, [Reply(ApproveErrorNotice)], Failed(StoreAPush))
      case Some(StoreBUpsert) =>
        && WroteA(st.storeA, r.state.storeA, user, key)
        && r.state.storeB == st.storeB
        && r.out == [Reply(ApproveErrorNotice)]
      case Some(UserNotify) =>
        && WroteA(st.storeA, r.state.storeA, user, key)
        && WroteB(st.storeB, r.state.storeB, user, key)
        && r.out == [Reply(ApproveErrorNotice)]
      case Some(AdminConfirm) =>
        && WroteA(st.storeA, r.state.storeA, user, key)
        && WroteB(st.storeB, r.state.storeB, user, key)
        && r.out == [Send(user, KeyNotice(key)), Reply(ApproveErrorNotice)]
  {
    var args := Split(text);
    if !IsAdmin(cfg, sender) then
      Step(st, [Reply(UnauthorizedNotice)], Denied)
    else if |args| < 3 then
      Step(st, [Reply(ApproveUsageHint)], Usage)
    else
      var user, key := args[1], args[2];
      var rec := Issued(key);
      if fault == Some(StoreAPush) then
        Step(st, [Reply(ApproveErrorNotice)], Failed(StoreAPush))
      else
        var a := PushRecord(st.storeA, user, rec);
        if fault == Some(StoreBUpsert) then
          Step(st.(storeA := a), [Reply(ApproveErrorNotice)], Failed(StoreBUpsert))
        else
          var written := st.(storeA := a, storeB := PushHistory(st.storeB, StrId(user), rec));
          if fault == Some(UserNotify) then
            Step(written, [Reply(ApproveErrorNotice)], Failed(UserNotify))
          else if fault == Some(AdminConfirm) then
            Step(written, [Send(user, KeyNotice(key)), Reply(ApproveErrorNotice)], Failed(AdminConfirm))
          else
            Step(written, [Send(user, KeyNotice(key)), Reply(ApprovedNotice(user))], Done)
  }

  /** The successful approval, on its own: both stores gain the record, the user gets the key and the admin the confirmation. */
  lemma ApproveSucceeds(cfg: Config, st: State, sender: nat, text: string)
    requires IsAdmin(cfg, sender) && Spaces(text) >= 2
    ensures var r := Approve(cfg, st, sender, text, None);
      var user := Split(text)[1];
      var key := Split(text)[2];
      && WroteA(st.storeA, r.state.storeA, user, key)
      && WroteB(st.storeB, r.state.storeB, user, key)
      && r.out == [Send(user, KeyNotice(key)), Reply(ApprovedNotice(user))]
      && r.state.pending == st.pending
  {
  }

  /** Both writes of one approval for `u` change the counts of `user` alike, unless `u` reaches `user`'s node by another token. */
  lemma WritesKeepCountsEqual(a: Realtime, a': Realtime, b: Documents, b': Documents, u: string, key: string, user: string)
    requires WroteA(a, a', u, key) && WroteB(b, b', u, key)
    requires NodeOf(u) == NodeOf(user) ==> u == user
    ensures |Log(a', NodeOf(user))| - |Log(a, NodeOf(user))| == |History(b', StrId(user))| - |History(b, StrId(user))|
  {
  }

  /** A failed Store B upsert is the one failure that leaves the stores apart: Store A has the record, Store B does not. */
  lemma UpsertFailureLeavesStoreAAhead(cfg: Config, st: State, sender: nat, text: string)
    requires IsAdmin(cfg, sender) && Spaces(text) >= 2
    ensures var user := Split(text)[1];
      var after := Approve(cfg, st, sender, text, Some(StoreBUpsert)).state;
      && |Log(after.storeA, NodeOf(user))| == |Log(st.storeA, NodeOf(user))| + 1
      && History(after.storeB, StrId(user)) == History(st.storeB, StrId(user))
  {
  }

  /** Approving the same user and key twice writes two records to each store: the command is not idempotent. */
  lemma ApproveTwiceAppendsTwice(cfg: Config, st: State, sender: nat, text: string)
    requires IsAdmin(cfg, sender) && Spaces(text) >= 2
    ensures var user := Split(text)[1];
      var rec := Issued(Split(text)[2]);
      var twice := Approve(cfg, Approve(cfg, st, sender, text, None).state, sender, text, None).state;
      && Log(twice.storeA, NodeOf(user)) == Log(st.storeA, NodeOf(user)) + [rec, rec]
      && History(twice.storeB, StrId(user)) == History(st.storeB, StrId(user)) + [rec, rec]
  {
  }

  /** The two writes of one approval for an id ending in `/`: Store A's node for the id without it gains the record, Store B's history for that id does not. */
  lemma WritesSplitAtTrailingSlash(a: Realtime, a': Realtime, b: Documents, b': Documents, base: string, key: string)
    requires WroteA(a, a', base + [Slash], key) && WroteB(b, b', base + [Slash], key)
    ensures Log(a', NodeOf(base)) == Log(a, NodeOf(base)) + [Issued(key)]
    ensures History(b', StrId(base)) == History(b, StrId(base))
  {
    NodeOfTrailingSlash(base);
    assert StrId(base) != StrId(base + [Slash]) by {
      assert |base| < |base + [Slash]|;
    }
  }

  /**
   Store A files a record by the node the id addresses, Store B by the id
   string itself: approving "5/" puts the record on user 5's node in Store A but
   in a separate document "5/" in Store B.
   */
  lemma ApproveTrailingSlash(cfg: Config, st: State, sender: nat, text: string, base: string)
    requires IsAdmin(cfg, sender) && Spaces(text) >= 2
    requires Split(text)[1] == base + [Slash]
    ensures var after := Approve(cfg, st, sender, text, None).state;
      && Log(after.storeA, NodeOf(base)) == Log(st.storeA, NodeOf(base)) + [Issued(Split(text)[2])]
      && History(after.storeB, StrId(base)) == History(st.storeB, StrId(base))
  {
    var after := Approve(cfg, st, sender, text, None).state;
    ApproveSucceeds(cfg, st, sender, text);
    WritesSplitAtTrailingSlash(st.storeA, after.storeA, st.storeB, after.storeB, base, Split(text)[2]);
  }

  // ------------------------------------------------------------ /broadcast <text>

  /** The chat a stored document's id addresses. */
  function ChatOf(id: BsonId): string {
    match id
    case StrId(s) => s
    case NumId(n) => Decimal.Render(n)
  }

  /** The chats of all stored users. */
  function Chats(docs: Documents): set<string> {
    set i | 0 <= i < |docs| :: ChatOf(docs[i].telegramId)
  }

  /** The chats a message list sends to. */
  function Recipients(out: seq<Outbound>): set<string> {
    set i | 0 <= i < |out| && out[i].Send? :: out[i].chat
  }

  lemma ChatsCons(d: UserDoc, docs: Documents)
    ensures Chats([d] + docs) == {ChatOf(d.telegramId)} + Chats(docs)
  {
    var all := [d] + docs;
    assert forall i :: 0 < i < |all| ==> all[i] == docs[i - 1];
    forall c | c in Chats(docs) ensures c in Chats(all) {
      var i :| 0 <= i < |docs| && ChatOf(docs[i].telegramId) == c;
      assert all[i + 1] == docs[i];
    }
    assert all[0] == d;
  }

  lemma RecipientsCons(m: Outbound, out: seq<Outbound>)
    ensures Recipients([m] + out) == (if m.Send? then {m.chat} else {}) + Recipients(out)
  {
    var all := [m] + out;
    assert forall i :: 0 < i < |all| ==> all[i] == out[i - 1];
    forall c | c in Recipients(out) ensures c in Recipients(all) {
      var i :| 0 <= i < |out| && out[i].Send? && out[i].chat == c;
      assert all[i + 1] == out[i];
    }
    assert all[0] == m;
  }

  /**
   The messages the fan-out delivers, one per stored user in collection order;
   a recipient in `failing` is skipped silently, as each send's failure is swallowed.
   */
  function Deliveries(docs: Documents, text: string, failing: set<string>): (r: seq<Outbound>)
    ensures |r| <= |docs|
    ensures forall i :: 0 <= i < |r| ==> r[i].Send? && r[i].body == BroadcastMessage(text)
    ensures Recipients(r) == Chats(docs) - failing
    ensures failing == {} ==> |r| == |docs|
  {
    if |docs| == 0 then []
    else
      var c := ChatOf(docs[0].telegramId);
      var rest := Deliveries(docs[1..], text, failing);
      ChatsCons(docs[0], docs[1..]);
      assert docs == [docs[0]] + docs[1..];
      if c in failing then rest
      else
        RecipientsCons(Send(c, BroadcastMessage(text)), rest);
        [Send(c, BroadcastMessage(text))] + rest
  }

  /**
   `/broadcast <text>`: the admin guard; then the text is everything after the
   first space (`split(" ").slice(1).join(" ")`); an empty text gets the usage
   hint; otherwise the text goes to every stored user and the admin is told the
   number of stored users, however many deliveries fail.
   */
  function Broadcast(cfg: Config, st: State, sender: nat, text: string, failing: set<string>): (r: Step)
    ensures r.state == st
    ensures !IsAdmin(cfg, sender) ==> r.out == [Reply(UnauthorizedNotice)]
    ensures IsAdmin(cfg, sender) && AfterFirstSpace(text) == "" ==> r.out == [Reply(BroadcastUsageHint)]
    ensures IsAdmin(cfg, sender) && AfterFirstSpace(text) != "" ==>
      && r.out == Deliveries(st.storeB, AfterFirstSpace(text), failing) + [Reply(BroadcastReport(|st.storeB|))]
      && r.outcome == Done
  {
    if !IsAdmin(cfg, sender) then
      Step(st, [Reply(UnauthorizedNotice)], Denied)
    else
      var body := Join(Split(text)[1..]);
      RestIsAfterFirstSpace(text);
      if body == "" then
        Step(st, [Reply(BroadcastUsageHint)], Usage)
      else
        Step(st, Deliveries(st.storeB, body, failing) + [Reply(BroadcastReport(|st.storeB|))], Done)
  }

  /** The count the admin is told does not depend on which deliveries fail, and every stored user outside `failing` gets the text. */
  lemma BroadcastCountIgnoresFailures(cfg: Config, st: State, sender: nat, text: string, f1: set<string>, f2: set<string>)
    requires IsAdmin(cfg, sender) && AfterFirstSpace(text) != ""
    ensures var r1 := Broadcast(cfg, st, sender, text, f1).out;
      var r2 := Broadcast(cfg, st, sender, text, f2).out;
      && r1[|r1| - 1] == r2[|r2| - 1] == Reply(BroadcastReport(|st.storeB|))
      && Recipients(r1) == Chats(st.storeB) - f1
  {
    var d1 := Deliveries(st.storeB, AfterFirstSpace(text), f1);
    var r1 := Broadcast(cfg, st, sender, text, f1).out;
    RecipientsConcat(d1, [Reply(BroadcastReport(|st.storeB|))]);
  }

  lemma {:induction false} RecipientsConcat(a: seq<Outbound>, b: seq<Outbound>)
    requires RepliesOnly(b)
    ensures Recipients(a + b) == Recipients(a)
  {
    var ab := a + b;
    assert forall i :: |a| <= i < |ab| ==> ab[i] == b[i - |a|];
    forall c | c in Recipients(ab) ensures c in Recipients(a) {
      var i :| 0 <= i < |ab| && ab[i].Send? && ab[i].chat == c;
      assert i < |a|;
      assert ab[i] == a[i];
    }
    forall c | c in Recipients(a) ensures c in Recipients(ab) {
      var i :| 0 <= i < |a| && a[i].Send? && a[i].chat == c;
      assert ab[i] == a[i];
    }
  }

  // ------------------------------------------------------------ My Keys

  /** The answer to "My Keys": the list of keys, or "no keys yet" when there are none. */
  function KeysReply(keys: seq<KeyRecord>): Body {
    if |keys| == 0 then NoKeysNotice else KeyListing(keys)
  }

  /** The answer lists a non-empty history, and says "no keys yet" exactly when the history is empty. */
  ghost predicate AnswersWith(r: Step, st: State, keys: seq<KeyRecord>) {
    && r.state == st
    && |r.out| == 1 && r.out[0].Reply?
    && (r.out[0].body == NoKeysNotice <==> keys == [])
    && (r.out[0].body != NoKeysNotice ==> r.out[0].body == KeyListing(keys))
  }

  /** "My Keys" as written: it looks the user up by the numeric id of the sender. */
  function MyKeysAsWritten(st: State, sender: nat): (r: Step)
    ensures AnswersWith(r, st, History(st.storeB, NumId(sender)))
  {
    Step(st, [Reply(KeysReply(History(st.storeB, NumId(sender))))], Done)
  }

  /** "My Keys" looking the user up by `String(ctx.from.id)`, the form `/approve` stores. */
  function MyKeys(st: State, sender: nat): (r: Step)
    ensures AnswersWith(r, st, History(st.storeB, StrId(Decimal.Render(sender))))
  {
    Step(st, [Reply(KeysReply(History(st.storeB, StrId(Decimal.Render(sender)))))], Done)
  }

  lemma {:induction false} NoNumericHistory(docs: Documents, n: nat)
    requires StringIds(docs)
    ensures History(docs, NumId(n)) == []
  {
    if |docs| > 0 {
      assert StringIds(docs[1..]) by {
        assert forall k :: 0 <= k < |docs[1..]| ==> docs[1..][k] == docs[k + 1];
      }
      NoNumericHistory(docs[1..], n);
    }
  }

  /** While every stored id is a string (as `/approve` leaves them), "My Keys" as written finds no keys for anyone. */
  lemma MyKeysAsWrittenFindsNothing(st: State, sender: nat)
    requires StringIds(st.storeB)
    ensures MyKeysAsWritten(st, sender).out == [Reply(NoKeysNotice)]
  {
    NoNumericHistory(st.storeB, sender);
  }

  /**
   The discrepancy for every input: after the admin approves a key for user `u`,
   Store B holds it under the string id `String(u)`, yet "My Keys" as written,
   asked by `u`, answers that there are none.
   */
  lemma ApprovedKeyHiddenAsWritten(cfg: Config, st: State, sender: nat, text: string, u: nat)
    requires StringIds(st.storeB)
    requires IsAdmin(cfg, sender) && Spaces(text) >= 2
    requires Split(text)[1] == Decimal.Render(u)
    ensures var after := Approve(cfg, st, sender, text, None).state;
      && Issued(Split(text)[2]) in History(after.storeB, StrId(Decimal.Render(u)))
      && MyKeysAsWritten(after, u).out == [Reply(NoKeysNotice)]
  {
    var after := Approve(cfg, st, sender, text, None).state;
    var id := StrId(Decimal.Render(u));
    var rec := Issued(Split(text)[2]);
    ApproveSucceeds(cfg, st, sender, text);
    assert History(after.storeB, id) == History(st.storeB, id) + [rec];
    assert History(after.storeB, id)[|History(st.storeB, id)|] == rec;
    assert after.storeB == PushHistory(st.storeB, id, rec);
    PushHistoryKeepsStringIds(st.storeB, id, rec);
    MyKeysAsWrittenFindsNothing(after, u);
  }

  /** With the lookup by string id, a user sees every key approved for them, the newest last. */
  lemma ApprovedKeyVisible(cfg: Config, st: State, sender: nat, text: string, user: nat)
    requires IsAdmin(cfg, sender) && Spaces(text) >= 2
    requires Split(text)[1] == Decimal.Render(user)
    ensures var after := Approve(cfg, st, sender, text, None).state;
      MyKeys(after, user).out ==
        [Reply(KeyListing(History(st.storeB, StrId(Decimal.Render(user))) + [Issued(Split(text)[2])]))]
  {
  }
}

=== FILE: decimal.dfy ===
/**
 Decimal numerals: JavaScript's `String(n)` for a non-negative integer and
 `Number(s)` for a string of decimal digits. The bot compares `String(ctx.from.id)`
 with the configured admin identity and reads the device count with `Number`.
 */
module Decimal {

  predicate IsDigit(c: char) {
    '0' <= c <= '9'
  }

  predicate IsDigits(s: string) {
    forall i :: 0 <= i < |s| ==> IsDigit(s[i])
  }

  /** A numeral as `String(n)` prints it: digits, no leading zero (except "0" itself). */
  predicate Canonical(s: string) {
    |s| >= 1 && IsDigits(s) && (s[0] == '0' ==> |s| == 1)
  }

  function DigitChar(d: nat): (c: char)
    requires d < 10
    ensures IsDigit(c)
    ensures (c as int) - ('0' as int) == d
  {
    (('0' as int) + d) as char
  }

  function DigitValue(c: char): (d: nat)
    requires IsDigit(c)
    ensures d < 10
  {
    (c as int) - ('0' as int)
  }

  /** `String(n)`: the canonical decimal numeral of `n`. */
  function Render(n: nat): (s: string)
    ensures Canonical(s)
    ensures n == 0 <==> s == "0"
  {
    if n < 10 then [DigitChar(n)]
    else Render(n / 10) + [DigitChar(n % 10)]
  }

  /** `Number(s)` for a string of digits (leading zeros allowed, as in `Number("02")`). */
  function Value(s: string): (v: nat)
    requires IsDigits(s)
  {
    if |s| == 0 then 0
    else Value(s[..|s| - 1]) * 10 + DigitValue(s[|s| - 1])
  }

  /** A string of digits reads as 0 exactly when every digit is '0'. */
  lemma {:induction false} ValueZero(s: string)
    requires IsDigits(s)
    ensures Value(s) == 0 <==> forall i :: 0 <= i < |s| ==> s[i] == '0'
  {
    if |s| > 0 {
      var init := s[..|s| - 1];
      ValueZero(init);
      assert forall i :: 0 <= i < |init| ==> init[i] == s[i];
    }
  }

  /** Reading back what `Render` prints gives the number again. */
  lemma {:induction false} ValueOfRender(n: nat)
    ensures Value(Render(n)) == n
  {
    if n >= 10 {
      var p := Render(n / 10);
      var s := Render(n);
      assert s == p + [DigitChar(n % 10)];
      assert s[..|s| - 1] == p;
      ValueOfRender(n / 10);
    }
  }

  /** A numeral with more than one digit and no leading zero is worth at least ten. */
  lemma {:induction false} ValueOfLeadingNonZero(s: string)
    requires IsDigits(s) && |s| >= 1 && s[0] != '0'
    ensures Value(s) >= 1
  {
    if |s| > 1 {
      var p := s[..|s| - 1];
      assert p[0] == s[0];
      ValueOfLeadingNonZero(p);
    }
  }

  lemma DigitRoundTrip(c: char)
    requires IsDigit(c)
    ensures DigitChar(DigitValue(c)) == c
  {
  }

  /** Appending a digit `d` to the numeral of `v >= 1` prints `10 * v + d`. */
  lemma RenderAppend(v: nat, d: nat)
    requires v >= 1 && d < 10
    ensures Render(v * 10 + d) == Render(v) + [DigitChar(d)]
  {
  }

  /** One more digit after a numeral that prints back to itself still prints back. */
  lemma RenderOfValueStep(p: string, c: char)
    requires IsDigits(p) && |p| >= 1 && p[0] != '0' && IsDigit(c)
    requires Render(Value(p)) == p
    ensures Render(Value(p + [c])) == p + [c]
  {
    var s := p + [c];
    assert s[..|s| - 1] == p;
    ValueOfLeadingNonZero(p);
    DigitRoundTrip(c);
    RenderAppend(Value(p), DigitValue(c));
  }

  /** Printing the value of a canonical numeral gives the numeral back. */
  lemma {:induction false} RenderOfValue(s: string)
    requires Canonical(s)
    ensures Render(Value(s)) == s
  {
    var p := s[..|s| - 1];
    var c := s[|s| - 1];
    assert s == p + [c];
    if |s| > 1 {
      assert p[0] == s[0];
      RenderOfValue(p);
      RenderOfValueStep(p, c);
    } else {
      DigitRoundTrip(c);
    }
  }

  /** `String(a) === String(b)` exactly when `a == b`; this is what makes an id comparison by string an id comparison. */
  lemma RenderInjective(a: nat, b: nat)
    ensures Render(a) == Render(b) <==> a == b
  {
    if Render(a) == Render(b) {
      ValueOfRender(a);
      ValueOfRender(b);
    }
  }

  /** The numbers whose `String` equals `s` are exactly `Value(s)` when `s` is canonical, and none otherwise. */
  lemma {:induction false} RenderMatches(n: nat, s: string)
    ensures Render(n) == s <==> (Canonical(s) && n == Value(s))
  {
    if Render(n) == s {
      ValueOfRender(n);
    }
    if Canonical(s) && n == Value(s) {
      RenderOfValue(s);
    }
  }
}

=== FILE: pricing.dfy ===
/**
 The `KEY_PRICE` table and the order price `KEY_PRICE[duration] * devices`.
 A duration the table does not hold gives `undefined`, and `undefined * n` is `NaN`:
 the model says `None` for it.
 */
module Pricing {
  import opened Wrappers

  /** The table when no price is configured: 7, 15 and 30 days. */
  const DefaultPrices: map<string, int> := map["7day" := 100, "15day" := 180, "30day" := 300]

  /**
   `KEY_PRICE[duration] * devices`, with `None` standing for `NaN`: a price
   exists exactly for the durations the table lists, and is the base price
   times the device count.
   */
  function Price(table: map<string, int>, duration: string, devices: nat): (p: Option<int>)
    ensures p.Some? <==> duration in table
    ensures duration in table ==> p.value == table[duration] * devices
  {
    if duration in table then Some(table[duration] * devices) else None
  }

  /** With the default table: 100, 180 and 300 per device, and nothing for any other duration. */
  lemma DefaultPriceValues(duration: string, devices: nat)
    ensures duration == "7day" ==> Price(DefaultPrices, duration, devices) == Some(100 * devices)
    ensures duration == "15day" ==> Price(DefaultPrices, duration, devices) == Some(180 * devices)
    ensures duration == "30day" ==> Price(DefaultPrices, duration, devices) == Some(300 * devices)
    ensures duration !in {"7day", "15day", "30day"} ==> Price(DefaultPrices, duration, devices) == None
  {
  }

  /** For a positive base price, more devices always cost more. */
  lemma PriceIncreasing(table: map<string, int>, duration: string, fewer: nat, more: nat)
    requires duration in table && table[duration] > 0
    requires fewer < more
    ensures Price(table, duration, fewer).value < Price(table, duration, more).value
  {
  }

  /** Price is additive in the device count: two orders cost what one combined order does. */
  lemma PriceAdditive(table: map<string, int>, duration: string, a: nat, b: nat)
    requires duration in table
    ensures Price(table, duration, a + b).value == Price(table, duration, a).value + Price(table, duration, b).value
  {
  }
}

=== FILE: runs.dfy ===
/**
 Sequences of updates. `Handle` dispatches one update to its handler, the way
 the bot's routing does, except that "My Keys" goes to the corrected lookup
 `MyKeys` rather than `MyKeysAsWritten`. `Run` applies a list of updates one
 after another, each to completion, and collects every message sent.
 */
module Runs {
  import opened Wrappers
  import Decimal
  import opened Stores
  import opened Bot

  /** One incoming update, with the sender's numeric id and whatever the outside world decides about it. */
  datatype Event =
    | BuyAction(from: nat, duration: string)
    | DeviceAction(from: nat, digits: string)
    | TxCommand(from: nat, firstName: string, text: string, adminDelivers: bool)
    | ApproveCommand(from: nat, text: string, fault: Option<Stage>)
    | BroadcastCommand(from: nat, text: string, failing: set<string>)
    | MyKeysRequest(from: nat)

  datatype Trace = Trace(state: State, out: seq<Outbound>)

  /**
   Route one update. A device callback carries the digits its pattern captured;
   anything that is not a run of digits matches no handler and is ignored.
   Only `/approve` can write a store, and only from the admin; only the two
   callbacks can change the pending order.
   */
  function Handle(cfg: Config, st: State, e: Event): (r: Step)
    ensures !e.ApproveCommand? ==> r.state.storeA == st.storeA && r.state.storeB == st.storeB
    ensures e.ApproveCommand? && !IsAdmin(cfg, e.from) ==> r.state == st
    ensures !(e.BuyAction? || e.DeviceAction?) ==> r.state.pending == st.pending
    ensures e.DeviceAction? && !(|e.digits| > 0 && Decimal.IsDigits(e.digits)) ==> r == Step(st, [], Ignored)
  {
    match e
    case BuyAction(_, duration) => ChooseDuration(st, duration)
    case DeviceAction(_, digits) =>
      if |digits| > 0 && Decimal.IsDigits(digits) then ChooseDevices(cfg, st, Decimal.Value(digits))
      else Step(st, [], Ignored)
    case TxCommand(from, name, text, delivers) => SubmitTx(cfg, st, from, name, text, delivers)
    case ApproveCommand(from, text, fault) => Approve(cfg, st, from, text, fault)
    case BroadcastCommand(from, text, failing) => Broadcast(cfg, st, from, text, failing)
    case MyKeysRequest(from) => MyKeys(st, from)
  }

  /**
   A run under any step function: each update is handled on the state the
   previous one left, and the messages are collected in order.
   */
  function Fold(step: (State, Event) -> Step, st: State, events: seq<Event>): Trace
    decreases |events|
  {
    if |events| == 0 then Trace(st, [])
    else
      var first := step(st, events[0]);
      var rest := Fold(step, first.state, events[1..]);
      Trace(rest.state, first.out + rest.out)
  }

  /** `Handle` under a fixed configuration, as a step function. */
  function Handler(cfg: Config): (step: (State, Event) -> Step)
    ensures forall s, e :: step(s, e) == Handle(cfg, s, e)
  {
    (s: State, e: Event) => Handle(cfg, s, e)
  }

  /** The bot's updates, handled one after another, each to completion. */
  function Run(cfg: Config, st: State, events: seq<Event>): Trace {
    Fold(Handler(cfg), st, events)
  }

  /** A non-empty run handles its first update, then runs the rest from the state that update left. */
  lemma RunCons(cfg: Config, st: State, events: seq<Event>)
    requires |events| > 0
    ensures var first := Handle(cfg, st, events[0]);
      var rest := Run(cfg, first.state, events[1..]);
      Run(cfg, st, events) == Trace(rest.state, first.out + rest.out)
  {
  }

  /** Every record in either store is still there, in the same place, after `after`. */
  ghost predicate Grows(before: State, after: State) {
    && (forall u :: Log(before.storeA, u) <= Log(after.storeA, u))
    && (forall id :: History(before.storeB, id) <= History(after.storeB, id))
  }

  /** Store B keeps one document per id, and every id is the string form `/approve` uses. */
  predicate WellFormed(st: State) {
    UniqueIds(st.storeB) && StringIds(st.storeB)
  }

  lemma GrowsTransitive(s1: State, s2: State, s3: State)
    requires Grows(s1, s2) && Grows(s2, s3)
    ensures Grows(s1, s3)
  {
  }

  lemma SameStoresGrow(before: State, after: State)
    requires after.storeA == before.storeA && after.storeB == before.storeB
    ensures Grows(before, after)
  {
  }

  /** `/approve` only appends, whichever stage fails. */
  lemma ApproveGrows(cfg: Config, st: State, sender: nat, text: string, fault: Option<Stage>)
    ensures Grows(st, Approve(cfg, st, sender, text, fault).state)
  {
  }

  /** One update never removes or reorders a stored record. */
  lemma HandleGrows(cfg: Config, st: State, e: Event)
    ensures Grows(st, Handle(cfg, st, e).state)
  {
    if e.ApproveCommand? {
      ApproveGrows(cfg, st, e.from, e.text, e.fault);
    } else {
      SameStoresGrow(st, Handle(cfg, st, e).state);
    }
  }

  /** Over any run both stores only grow at the end: append-only. */
  lemma {:induction false} RunGrows(cfg: Config, st: State, events: seq<Event>)
    ensures Grows(st, Run(cfg, st, events).state)
    decreases |events|
  {
    if |events| == 0 {
      SameStoresGrow(st, st);
    } else {
      var mid := Handle(cfg, st, events[0]).state;
      HandleGrows(cfg, st, events[0]);
      RunGrows(cfg, mid, events[1..]);
      GrowsTransitive(st, mid, Run(cfg, mid, events[1..]).state);
    }
  }

  lemma HandleWellFormed(cfg: Config, st: State, e: Event)
    requires WellFormed(st)
    ensures WellFormed(Handle(cfg, st, e).state)
  {
    if e.ApproveCommand? && IsAdmin(cfg, e.from) && Tokens.Spaces(e.text) >= 2 {
      var user := Tokens.Split(e.text)[1];
      var rec := Issued(Tokens.Split(e.text)[2]);
      PushHistoryKeepsUnique(st.storeB, StrId(user), rec);
      PushHistoryKeepsStringIds(st.storeB, StrId(user), rec);
    }
  }

  /** No run ever gives a user two documents or a non-string id. */
  lemma {:induction false} RunWellFormed(cfg: Config, st: State, events: seq<Event>)
    requires WellFormed(st)
    ensures WellFormed(Run(cfg, st, events).state)
    decreases |events|
  {
    if |events| > 0 {
      HandleWellFormed(cfg, st, events[0]);
      RunWellFormed(cfg, Handle(cfg, st, events[0]).state, events[1..]);
    }
  }

  /** Only the admin can write: a run in which nobody else speaks leaves both stores as they were. */
  lemma {:induction false} RunWithoutAdminWritesNothing(cfg: Config, st: State, events: seq<Event>)
    requires forall i :: 0 <= i < |events| ==> !IsAdmin(cfg, events[i].from)
    ensures Run(cfg, st, events).state.storeA == st.storeA
    ensures Run(cfg, st, events).state.storeB == st.storeB
    decreases |events|
  {
    if |events| > 0 {
      var mid := Handle(cfg, st, events[0]).state;
      assert mid.storeA == st.storeA && mid.storeB == st.storeB;
      RunWithoutAdminWritesNothing(cfg, mid, events[1..]);
    }
  }

  /** Every message of a run without the admin is either an answer to its sender or a payment notice to the admin. */
  lemma {:induction false} RunWithoutAdminSendsOnlyToAdmin(cfg: Config, st: State, events: seq<Event>)
    requires forall i :: 0 <= i < |events| ==> !IsAdmin(cfg, events[i].from)
    ensures forall m :: m in Run(cfg, st, events).out && m.Send? ==> m.chat == cfg.adminId && m.body.PaymentNotice?
    decreases |events|
  {
    if |events| > 0 {
      var first := Handle(cfg, st, events[0]);
      RunWithoutAdminSendsOnlyToAdmin(cfg, first.state, events[1..]);
      assert forall m :: m in first.out && m.Send? ==> m.chat == cfg.adminId && m.body.PaymentNotice?;
    }
  }

  /** The user token an update approves for, when it is an `/approve` with enough arguments. */
  function ApproveTarget(e: Event): Option<string> {
    if e.ApproveCommand? && Tokens.Spaces(e.text) >= 2 then Some(Tokens.Split(e.text)[1]) else None
  }

  /**
   One update keeps the two counts for `user` in step unless it is an approval
   whose Store B upsert fails: a Store A failure writes neither store, and a
   failed user message or confirmation comes after both writes.
   */
  lemma HandleKeepsCountsEqual(cfg: Config, st: State, e: Event, user: string)
    requires !(e.ApproveCommand? && e.fault == Some(StoreBUpsert))
    requires ApproveTarget(e).Some? ==> (NodeOf(ApproveTarget(e).value) == NodeOf(user) ==> ApproveTarget(e).value == user)
    ensures var mid := Handle(cfg, st, e).state;
      |Log(mid.storeA, NodeOf(user))| - |Log(st.storeA, NodeOf(user))| ==
      |History(mid.storeB, StrId(user))| - |History(st.storeB, StrId(user))|
  {
    if e.ApproveCommand? && IsAdmin(cfg, e.from) && Tokens.Spaces(e.text) >= 2 && e.fault != Some(StoreAPush) {
      var after := Approve(cfg, st, e.from, e.text, e.fault).state;
      WritesKeepCountsEqual(st.storeA, after.storeA, st.storeB, after.storeB,
                            Tokens.Split(e.text)[1], Tokens.Split(e.text)[2], user);
    }
  }

  /**
   Unless an approval's Store B upsert fails, a run adds as many records to the
   Store A node of `user` as entries to the Store B history of `user`, provided
   no approval in the run names that node by a different token ("5/" for "5").
   Only a failed upsert makes the counts differ (`Bot.UpsertFailureLeavesStoreAAhead`).
   */
  lemma {:induction false} StoresAgreeUnlessUpsertFails(cfg: Config, st: State, events: seq<Event>, user: string)
    requires forall i :: 0 <= i < |events| ==> !(events[i].ApproveCommand? && events[i].fault == Some(StoreBUpsert))
    requires forall i :: 0 <= i < |events| && ApproveTarget(events[i]).Some? ==>
      (NodeOf(ApproveTarget(events[i]).value) == NodeOf(user) ==> ApproveTarget(events[i]).value == user)
    ensures var end := Run(cfg, st, events).state;
      |Log(end.storeA, NodeOf(user))| - |Log(st.storeA, NodeOf(user))| ==
      |History(end.storeB, StrId(user))| - |History(st.storeB, StrId(user))|
    decreases |events|
  {
    if |events| > 0 {
      var mid := Handle(cfg, st, events[0]).state;
      RunCons(cfg, st, events);
      HandleKeepsCountsEqual(cfg, st, events[0], user);
      assert forall i :: 0 <= i < |events[1..]| ==> events[1..][i] == events[i + 1];
      StoresAgreeUnlessUpsertFails(cfg, mid, events[1..], user);
    }
  }

  /** One update alone: the run is that handler's step. */
  lemma RunOne(cfg: Config, st: State, e: Event)
    ensures var h := Handle(cfg, st, e);
      Run(cfg, st, [e]) == Trace(h.state, h.out)
  {
    RunCons(cfg, st, [e]);
    assert [e][1..] == [];
  }

  /** Running `a + b` under any step function is running `a`, then `b` from where `a` left off; the messages are concatenated. */
  lemma {:induction false} FoldConcat(step: (State, Event) -> Step, st: State, a: seq<Event>, b: seq<Event>)
    ensures var ra := Fold(step, st, a);
      var rb := Fold(step, ra.state, b);
      Fold(step, st, a + b) == Trace(rb.state, ra.out + rb.out)
    decreases |a|
  {
    if |a| == 0 {
      assert a + b == b;
    } else {
      var first := step(st, a[0]);
      assert (a + b)[0] == a[0];
      assert (a + b)[1..] == a[1..] + b;
      FoldConcat(step, first.state, a[1..], b);
    }
  }

  /** Running `a + b` is running `a`, then `b` from where `a` left off; the messages are concatenated. */
  lemma RunConcat(cfg: Config, st: State, a: seq<Event>, b: seq<Event>)
    ensures var ra := Run(cfg, st, a);
      var rb := Run(cfg, ra.state, b);
      Run(cfg, st, a + b) == Trace(rb.state, ra.out + rb.out)
  {
    FoldConcat(Handler(cfg), st, a, b);
  }

  /** Four updates in a row under any step function. */
  lemma FoldFour(step: (State, Event) -> Step, st: State, e0: Event, e1: Event, e2: Event, e3: Event)
    ensures var s1 := step(st, e0);
      var s2 := step(s1.state, e1);
      var s3 := step(s2.state, e2);
      var s4 := step(s3.state, e3);
      Fold(step, st, [e0, e1, e2, e3]) == Trace(s4.state, s1.out + s2.out + s3.out + s4.out)
  {
    var es := [e0, e1, e2, e3];
    assert es[1..] == [e1, e2, e3] && es[1..][1..] == [e2, e3] && es[1..][1..][1..] == [e3];
    assert [e3][1..] == [];
    var s1 := step(st, e0);
    var s2 := step(s1.state, e1);
    var s3 := step(s2.state, e2);
    var s4 := step(s3.state, e3);
    assert Fold(step, s3.state, [e3]) == Trace(s4.state, s4.out + []);
    assert Fold(step, s2.state, [e2, e3]) == Trace(s4.state, s3.out + (s4.out + []));
    assert Fold(step, s1.state, [e1, e2, e3]) == Trace(s4.state, s2.out + (s3.out + (s4.out + [])));
    assert s1.out + (s2.out + (s3.out + (s4.out + []))) == s1.out + s2.out + s3.out + s4.out;
  }

  /** Four updates in a row: each handler runs on the state the previous one left, and the messages are concatenated. */
  lemma RunFour(cfg: Config, st: State, e0: Event, e1: Event, e2: Event, e3: Event)
    ensures var s1 := Handle(cfg, st, e0);
      var s2 := Handle(cfg, s1.state, e1);
      var s3 := Handle(cfg, s2.state, e2);
      var s4 := Handle(cfg, s3.state, e3);
      Run(cfg, st, [e0, e1, e2, e3]) == Trace(s4.state, s1.out + s2.out + s3.out + s4.out)
  {
    var h := Handler(cfg);
    var s1 := Handle(cfg, st, e0);
    var s2 := Handle(cfg, s1.state, e1);
    var s3 := Handle(cfg, s2.state, e2);
    assert h(st, e0) == s1 && h(s1.state, e1) == s2 && h(s2.state, e2) == s3;
    assert h(s3.state, e3) == Handle(cfg, s3.state, e3);
    FoldFour(h, st, e0, e1, e2, e3);
  }

  /** Four message lists of one, one, two and two messages, concatenated in order. */
  lemma ConcatSix<T>(a: seq<T>, b: seq<T>, c: seq<T>, d: seq<T>, x1: T, x2: T, x3: T, x4: T, x5: T, x6: T)
    requires a == [x1] && b == [x2] && c == [x3, x4] && d == [x5, x6]
    ensures a + b + c + d == [x1, x2, x3, x4, x5, x6]
  {
  }

  /**
   The whole purchase, end to end: a buyer picks a duration and a device count,
   submits a transaction id, and the admin approves a key for them. The buyer
   is quoted the table price, the admin sees the complete order with the id, the
   key reaches the user named in the command, and each store gains one record.
   */
  lemma PurchaseScenario(cfg: Config, storeA: Realtime, storeB: Documents, buyer: nat, buyerName: string,
                         duration: string, digits: string, txText: string, admin: nat, approveText: string)
    requires |digits| > 0 && Decimal.IsDigits(digits)
    requires TxIdOf(txText).Some? && TxIdOf(txText) != Some("")
    requires IsAdmin(cfg, admin) && Tokens.Spaces(approveText) >= 2
    ensures var n := Decimal.Value(digits);
      var user := Tokens.Split(approveText)[1];
      var key := Tokens.Split(approveText)[2];
      var t := Run(cfg, Start(storeA, storeB), [BuyAction(buyer, duration), DeviceAction(buyer, digits),
                             TxCommand(buyer, buyerName, txText, true), ApproveCommand(admin, approveText, None)]);
      && t.out == [Reply(DevicePrompt),
                   Reply(OrderSummary(cfg.qrImageUrl, duration, n, Pricing.Price(cfg.prices, duration, n), cfg.upiId)),
                   Send(cfg.adminId, PaymentNotice(buyerName, buyer, Order(duration, Some(n)), TxIdOf(txText).value)),
                   Reply(TxReceivedNotice),
                   Send(user, KeyNotice(key)),
                   Reply(ApprovedNotice(user))]
      && Log(t.state.storeA, NodeOf(user)) == Log(storeA, NodeOf(user)) + [Issued(key)]
      && History(t.state.storeB, StrId(user)) == History(storeB, StrId(user)) + [Issued(key)]
      && t.state.pending == Some(Order(duration, Some(n)))
  {
    var n := Decimal.Value(digits);
    var st := Start(storeA, storeB);
    var e0, e1 := BuyAction(buyer, duration), DeviceAction(buyer, digits);
    var e2, e3 := TxCommand(buyer, buyerName, txText, true), ApproveCommand(admin, approveText, None);
    var s1 := Handle(cfg, st, e0);
    var s2 := Handle(cfg, s1.state, e1);
    var s3 := Handle(cfg, s2.state, e2);
    var s4 := Handle(cfg, s3.state, e3);
    var user := Tokens.Split(approveText)[1];
    var key := Tokens.Split(approveText)[2];
    RunFour(cfg, st, e0, e1, e2, e3);
    assert s1.out == [Reply(DevicePrompt)];
    assert s2.state.pending == Some(Order(duration, Some(n)));
    assert s2.out == [Reply(OrderSummary(cfg.qrImageUrl, duration, n, Pricing.Price(cfg.prices, duration, n), cfg.upiId))];
    assert s2.state.storeA == storeA && s2.state.storeB == storeB;
    SubmitTxNotifiesAdmin(cfg, s2.state, buyer, buyerName, txText);
    assert s3.state == s2.state;
    ApproveSucceeds(cfg, s3.state, admin, approveText);
    assert s4.out == [Send(user, KeyNotice(key)), Reply(ApprovedNotice(user))];
    ConcatSix(s1.out, s2.out, s3.out, s4.out,
              Reply(DevicePrompt),
              Reply(OrderSummary(cfg.qrImageUrl, duration, n, Pricing.Price(cfg.prices, duration, n), cfg.upiId)),
              Send(cfg.adminId, PaymentNotice(buyerName, buyer, Order(duration, Some(n)), TxIdOf(txText).value)),
              Reply(TxReceivedNotice),
              Send(user, KeyNotice(key)),
              Reply(ApprovedNotice(user)));
  }
}

=== FILE: stores.dfy ===
/**
 The two places an approved key is written.

 Store A is the realtime database. An approval for `userId` pushes one record
 onto the node at the path `keys/<userId>`, and nothing is ever removed. The
 database reads a path as its `/`-separated pieces with empty pieces dropped,
 so the node a token names is not always the token itself: "5/" names the same
 node as "5", "5/x" names a child of it, and "" names `keys` itself.

 Store B is the `users` document collection: one document per `telegram_id`
 holding a `key_history` array, written with `updateOne(..., {$push: ...}, {upsert: true})`.
 The model keeps documents in insertion order. `find({})` promises no order, so
 the order of the collection is one possible order, not a guaranteed one.
 */
module Stores {
  import Decimal

  /** One issued key; the creation time stamped next to it is not modelled. */
  datatype KeyRecord = KeyRecord(key: string, active: bool)

  /** The record an approval writes: the key, marked active. */
  function Issued(key: string): KeyRecord {
    KeyRecord(key, true)
  }

  // ---------------------------------------------------------------- Store A

  const Slash: char := '/'

  /** The pieces of a database path: the text between slashes, empty pieces dropped. */
  function Pieces(s: string): (r: seq<string>)
    ensures forall i :: 0 <= i < |r| ==> r[i] != "" && Slash !in r[i]
    ensures |s| > 0 && s[0] != Slash ==> |r| > 0 && r[0][0] == s[0]
  {
    if |s| == 0 then []
    else
      var rest := Pieces(s[1..]);
      if s[0] == Slash then rest
      else if |s| == 1 || s[1] == Slash then [[s[0]]] + rest
      else [[s[0]] + rest[0]] + rest[1..]
  }

  /** A name without slashes is one piece (and the empty name none). */
  lemma {:induction false} PiecesOfName(w: string)
    requires Slash !in w
    ensures w != "" ==> Pieces(w) == [w]
    ensures w == "" ==> Pieces(w) == []
    decreases |w|
  {
    if |w| > 0 {
      assert Slash !in w[1..] by {
        assert forall k :: 0 <= k < |w[1..]| ==> w[1..][k] == w[k + 1];
      }
      PiecesOfName(w[1..]);
      assert w[0] != Slash;
      if |w| > 1 {
        assert w[1] == w[1..][0];
        assert w[1] != Slash;
        assert [w[0]] + w[1..] == w;
      } else {
        assert [w[0]] == w;
      }
    }
  }

  /** The pieces of a path with one more character in front. */
  lemma PiecesCons(c: char, s: string)
    ensures c == Slash ==> Pieces([c] + s) == Pieces(s)
    ensures c != Slash && (s == [] || s[0] == Slash) ==> Pieces([c] + s) == [[c]] + Pieces(s)
    ensures c != Slash && s != [] && s[0] != Slash ==>
      Pieces([c] + s) == [[c] + Pieces(s)[0]] + Pieces(s)[1..]
  {
  }

  /** The inductive step of `PiecesConcat`: one more character in front of `a`. */
  lemma PiecesConcatStep(c: char, a: string, b: string)
    requires Pieces(a + [Slash] + b) == Pieces(a) + Pieces(b)
    ensures Pieces([c] + a + [Slash] + b) == Pieces([c] + a) + Pieces(b)
  {
    var t := a + [Slash] + b;
    assert [c] + a + [Slash] + b == [c] + t;
    if c == Slash {
      PiecesCons(c, t);
      PiecesCons(c, a);
    } else if a == [] || a[0] == Slash {
      PiecesAfterSingle(c, a, b);
    } else {
      PiecesAfterJoined(c, a, b);
    }
  }

  /** The step when `c` is a piece of its own: `a` is empty or starts with a slash. */
  lemma PiecesAfterSingle(c: char, a: string, b: string)
    requires c != Slash && (a == [] || a[0] == Slash)
    requires Pieces(a + [Slash] + b) == Pieces(a) + Pieces(b)
    ensures Pieces([c] + (a + [Slash] + b)) == Pieces([c] + a) + Pieces(b)
  {
  }

  /** Prefixing a character to the first of `p`'s pieces commutes with appending `q`. */
  lemma JoinFirstPiece(c: char, p: seq<string>, q: seq<string>)
    requires |p| > 0
    ensures [[c] + (p + q)[0]] + (p + q)[1..] == ([[c] + p[0]] + p[1..]) + q
  {
  }

  /** The step when `c` joins the first piece of `a`. */
  lemma PiecesAfterJoined(c: char, a: string, b: string)
    requires c != Slash && a != [] && a[0] != Slash
    requires Pieces(a + [Slash] + b) == Pieces(a) + Pieces(b)
    ensures Pieces([c] + (a + [Slash] + b)) == Pieces([c] + a) + Pieces(b)
  {
  }

  /** Joining two paths with a slash joins their pieces, however many slashes either one has at its ends. */
  lemma {:induction false} PiecesConcat(a: string, b: string)
    ensures Pieces(a + [Slash] + b) == Pieces(a) + Pieces(b)
    decreases |a|
  {
    if |a| == 0 {
      assert a + [Slash] + b == [Slash] + b;
      PiecesCons(Slash, b);
    } else {
      PiecesConcat(a[1..], b);
      PiecesConcatStep(a[0], a[1..], b);
      assert a == [a[0]] + a[1..];
    }
  }

  /** The node `ref(`keys/${user}`)` addresses. */
  function NodeOf(user: string): (node: seq<string>)
    ensures node == ["keys"] + Pieces(user)
  {
    PiecesConcat("keys", user);
    assert Slash !in "keys";
    PiecesOfName("keys");
    assert "keys/" + user == "keys" + [Slash] + user;
    Pieces("keys/" + user)
  }

  /** A user id without slashes addresses its own node under `keys`; the empty id addresses `keys` itself. */
  lemma NodeOfName(user: string)
    requires Slash !in user
    ensures user != "" ==> NodeOf(user) == ["keys", user]
    ensures user == "" ==> NodeOf(user) == ["keys"]
  {
    PiecesOfName(user);
  }

  /** A trailing slash changes nothing: "5/" addresses the node of "5". */
  lemma NodeOfTrailingSlash(user: string)
    ensures NodeOf(user + [Slash]) == NodeOf(user)
  {
    PiecesConcat(user, "");
    assert user + [Slash] + "" == user + [Slash];
  }

  /** Store A: the records pushed directly onto each node, by the node's path. */
  type Realtime = map<seq<string>, seq<KeyRecord>>

  /** The records pushed onto `node`; a node never written reads as empty. */
  function Log(a: Realtime, node: seq<string>): seq<KeyRecord> {
    if node in a then a[node] else []
  }

  /** `ref(`keys/${user}`).push(rec)`: one more record on the node the id addresses, no other node touched. */
  function PushRecord(a: Realtime, user: string, rec: KeyRecord): (a': Realtime)
    ensures Log(a', NodeOf(user)) == Log(a, NodeOf(user)) + [rec]
    ensures forall node :: node != NodeOf(user) ==> Log(a', node) == Log(a, node)
    ensures a'.Keys == a.Keys + {NodeOf(user)}
  {
    var node := Pieces("keys/" + user);
    a[node := Log(a, node) + [rec]]
  }

  // ---------------------------------------------------------------- Store B

  /**
   The value stored in a document's `telegram_id` field. The document store
   compares by type as well as value: the string "555" and the number 555 do not match.
   */
  datatype BsonId = StrId(text: string) | NumId(num: nat)

  datatype UserDoc = UserDoc(telegramId: BsonId, keyHistory: seq<KeyRecord>)

  /** Store B: the `users` collection in insertion order. */
  type Documents = seq<UserDoc>

  /** The `telegram_id` values present in the collection. */
  function Ids(docs: Documents): set<BsonId> {
    set i | 0 <= i < |docs| :: docs[i].telegramId
  }

  /** No two documents share a `telegram_id`. */
  predicate UniqueIds(docs: Documents) {
    forall i, j :: 0 <= i < j < |docs| ==> docs[i].telegramId != docs[j].telegramId
  }

  /** Every `telegram_id` in the collection is a string. */
  predicate StringIds(docs: Documents) {
    forall i :: 0 <= i < |docs| ==> docs[i].telegramId.StrId?
  }

  /** `findOne({telegram_id: id})?.key_history || []`: the history of the first matching document. */
  function History(docs: Documents, id: BsonId): (r: seq<KeyRecord>) {
    if |docs| == 0 then []
    else if docs[0].telegramId == id then docs[0].keyHistory
    else History(docs[1..], id)
  }

  /** With no document for `id`, the history is empty. */
  lemma {:induction false} HistoryOfMissing(docs: Documents, id: BsonId)
    requires forall k :: 0 <= k < |docs| ==> docs[k].telegramId != id
    ensures History(docs, id) == []
  {
    if |docs| > 0 {
      HistoryOfMissing(docs[1..], id);
    }
  }

  /** The history is that of the first document for `id`. */
  lemma {:induction false} HistoryOfFirstMatch(docs: Documents, id: BsonId, k: nat)
    requires k < |docs| && docs[k].telegramId == id
    requires forall j :: 0 <= j < k ==> docs[j].telegramId != id
    ensures History(docs, id) == docs[k].keyHistory
  {
    if k > 0 {
      HistoryOfFirstMatch(docs[1..], id, k - 1);
    }
  }

  lemma IdsCons(d: UserDoc, docs: Documents)
    ensures Ids([d] + docs) == {d.telegramId} + Ids(docs)
  {
    var all := [d] + docs;
    forall x | x in Ids(all) ensures x in {d.telegramId} + Ids(docs) {
      var i :| 0 <= i < |all| && all[i].telegramId == x;
      if i > 0 {
        assert docs[i - 1].telegramId == x;
      }
    }
    forall x | x in Ids(docs) ensures x in Ids(all) {
      var i :| 0 <= i < |docs| && docs[i].telegramId == x;
      assert all[i + 1].telegramId == x;
    }
    assert all[0].telegramId == d.telegramId;
  }

  /**
   `updateOne({telegram_id: id}, {$push: {key_history: rec}}, {upsert: true})`:
   append to the first matching document, or add a new document at the end.
   */
  function PushHistory(docs: Documents, id: BsonId, rec: KeyRecord): (r: Documents)
    ensures History(r, id) == History(docs, id) + [rec]
    ensures forall other :: other != id ==> History(r, other) == History(docs, other)
    ensures |docs| <= |r| <= |docs| + 1
  {
    if |docs| == 0 then
      [UserDoc(id, [rec])]
    else if docs[0].telegramId == id then
      [docs[0].(keyHistory := docs[0].keyHistory + [rec])] + docs[1..]
    else
      var r := [docs[0]] + PushHistory(docs[1..], id, rec);
      assert r[1..] == PushHistory(docs[1..], id, rec);
      r
  }

  /** The upsert adds `id` to the ids and nothing else; it adds a document exactly when `id` was absent. */
  lemma {:induction false} PushHistoryIds(docs: Documents, id: BsonId, rec: KeyRecord)
    ensures Ids(PushHistory(docs, id, rec)) == Ids(docs) + {id}
    ensures |PushHistory(docs, id, rec)| == if id in Ids(docs) then |docs| else |docs| + 1
  {
    var r := PushHistory(docs, id, rec);
    if |docs| == 0 {
      assert r[0].telegramId == id;
    } else {
      assert docs == [docs[0]] + docs[1..];
      IdsCons(docs[0], docs[1..]);
      if docs[0].telegramId == id {
        IdsCons(r[0], docs[1..]);
        assert r == [r[0]] + docs[1..];
      } else {
        var tail := PushHistory(docs[1..], id, rec);
        PushHistoryIds(docs[1..], id, rec);
        IdsCons(docs[0], tail);
        assert r == [docs[0]] + tail;
      }
    }
  }

  /** The upsert never creates a second document for an id. */
  lemma {:induction false} PushHistoryKeepsUnique(docs: Documents, id: BsonId, rec: KeyRecord)
    requires UniqueIds(docs)
    ensures UniqueIds(PushHistory(docs, id, rec))
  {
    var r := PushHistory(docs, id, rec);
    if |docs| > 0 {
      if docs[0].telegramId == id {
        assert forall k :: 0 < k < |r| ==> r[k] == docs[k];
      } else {
        var tail := PushHistory(docs[1..], id, rec);
        assert r == [docs[0]] + tail;
        PushHistoryKeepsUnique(docs[1..], id, rec);
        PushHistoryIds(docs[1..], id, rec);
        assert docs[0].telegramId !in Ids(docs[1..]) by {
          forall k | 0 <= k < |docs[1..]| ensures docs[1..][k].telegramId != docs[0].telegramId {
            assert docs[1..][k] == docs[k + 1];
          }
        }
        forall j | 0 < j < |r| ensures r[0].telegramId != r[j].telegramId {
          assert r[j] == tail[j - 1];
          assert tail[j - 1].telegramId in Ids(tail);
        }
      }
    }
  }

  /** Upserting under a string id keeps every id a string. */
  lemma {:induction false} PushHistoryKeepsStringIds(docs: Documents, id: BsonId, rec: KeyRecord)
    requires StringIds(docs) && id.StrId?
    ensures StringIds(PushHistory(docs, id, rec))
  {
    var r := PushHistory(docs, id, rec);
    if |docs| > 0 {
      if docs[0].telegramId == id {
        assert forall k :: 0 < k < |r| ==> r[k] == docs[k];
      } else {
        var tail := PushHistory(docs[1..], id, rec);
        assert r == [docs[0]] + tail;
        PushHistoryKeepsStringIds(docs[1..], id, rec);
        assert forall k :: 0 < k < |r| ==> r[k] == tail[k - 1];
      }
    }
  }
}

=== FILE: tokens.dfy ===
/**
 JavaScript's `text.split(" ")` and `tokens.join(" ")`, which the bot uses to read
 the arguments of `/tx`, `/approve` and `/broadcast`. Splitting is on the single
 character ' ': two spaces in a row give an empty token between them, and a text
 without spaces is one token.
 */
module Tokens {
  import opened Wrappers

  const Space: char := ' '

  /** How many spaces `s` holds. */
  function Spaces(s: string): nat {
    if |s| == 0 then 0
    else (if s[0] == Space then 1 else 0) + Spaces(s[1..])
  }

  /** `s.split(" ")`. */
  function Split(s: string): (r: seq<string>)
    ensures |r| == Spaces(s) + 1
    ensures forall i :: 0 <= i < |r| ==> Space !in r[i]
  {
    if |s| == 0 then [""]
    else
      var rest := Split(s[1..]);
      if s[0] == Space then [""] + rest
      else [[s[0]] + rest[0]] + rest[1..]
  }

  /** `ts.join(" ")`; joining no tokens gives the empty string. */
  function Join(ts: seq<string>): (r: string)
    ensures |ts| > 0 ==> ts[0] <= r
    ensures |ts| > 1 ==> |ts[0]| < |r| && r[|ts[0]|] == Space
  {
    if |ts| == 0 then ""
    else if |ts| == 1 then ts[0]
    else ts[0] + [Space] + Join(ts[1..])
  }

  /** `tokens[i]`: `undefined` past the end. */
  function Token(ts: seq<string>, i: nat): Option<string> {
    if i < |ts| then Some(ts[i]) else None
  }

  /** The characters before the first space (all of `s` when it has none). */
  function FirstWord(s: string): string {
    if |s| == 0 || s[0] == Space then ""
    else [s[0]] + FirstWord(s[1..])
  }

  /** The characters after the first space ("" when there is none). */
  function AfterFirstSpace(s: string): string {
    if |s| == 0 then ""
    else if s[0] == Space then s[1..]
    else AfterFirstSpace(s[1..])
  }

  /** Joining the pieces of a split gives back the text. */
  lemma {:induction false} JoinSplit(s: string)
    ensures Join(Split(s)) == s
    decreases |s|
  {
    if |s| > 0 {
      var rest := Split(s[1..]);
      JoinSplit(s[1..]);
      assert s == [s[0]] + s[1..];
      if s[0] == Space {
        assert Split(s) == [""] + rest;
        assert ([""] + rest)[1..] == rest;
      } else {
        var head := [s[0]] + rest[0];
        if |rest| == 1 {
          assert Split(s) == [head];
        } else {
          assert Join(rest) == rest[0] + [Space] + Join(rest[1..]);
          assert Split(s) == [head] + rest[1..];
          assert ([head] + rest[1..])[1..] == rest[1..];
        }
      }
    }
  }

  /** A space-free prefix glues onto the first piece of what follows it. */
  lemma {:induction false} SplitPrefix(w: string, t: string)
    requires Space !in w
    ensures Split(w + t) == [w + Split(t)[0]] + Split(t)[1..]
    decreases |w|
  {
    if |w| == 0 {
      assert w + t == t;
      assert w + Split(t)[0] == Split(t)[0];
      assert Split(t) == [Split(t)[0]] + Split(t)[1..];
    } else {
      assert w[0] != Space && w[0] == (w + t)[0];
      assert Space !in w[1..] by {
        assert forall k :: 0 <= k < |w[1..]| ==> w[1..][k] == w[k + 1];
      }
      SplitPrefix(w[1..], t);
      assert (w + t)[1..] == w[1..] + t;
      var rest := Split(w[1..] + t);
      assert Split(w + t) == [[w[0]] + rest[0]] + rest[1..];
      assert rest[0] == w[1..] + Split(t)[0];
      assert rest[1..] == Split(t)[1..];
      assert w == [w[0]] + w[1..];
      assert [w[0]] + rest[0] == w + Split(t)[0];
    }
  }

  /** A space-free word followed by a space is exactly the first token. */
  lemma SplitAtSpace(w: string, t: string)
    requires Space !in w
    ensures Split(w + [Space] + t) == [w] + Split(t)
  {
    SplitPrefix(w, [Space] + t);
    assert w + [Space] + t == w + ([Space] + t);
    assert ([Space] + t)[1..] == t;
    assert ([Space] + t)[0] == Space;
    assert Split([Space] + t) == [""] + Split(t);
    assert w + "" == w;
  }

  /** Splitting the join of space-free tokens gives the tokens back. */
  lemma {:induction false} SplitJoin(ts: seq<string>)
    requires |ts| >= 1
    requires forall i :: 0 <= i < |ts| ==> Space !in ts[i]
    ensures Split(Join(ts)) == ts
  {
    if |ts| == 1 {
      SplitPrefix(ts[0], "");
      assert ts[0] + "" == ts[0];
    } else {
      SplitJoin(ts[1..]);
      SplitAtSpace(ts[0], Join(ts[1..]));
      assert ts == [ts[0]] + ts[1..];
    }
  }

  /** The first token is the text up to the first space. */
  lemma {:induction false} FirstTokenIsFirstWord(s: string)
    ensures Split(s)[0] == FirstWord(s)
    decreases |s|
  {
    if |s| > 0 && s[0] != Space {
      FirstTokenIsFirstWord(s[1..]);
    }
  }

  /** Everything after the first token is the split of the text after the first space. */
  lemma {:induction false} TailTokens(s: string)
    ensures Space in s ==> Split(s)[1..] == Split(AfterFirstSpace(s))
    ensures Space !in s ==> Split(s) == [s]
    decreases |s|
  {
    if |s| > 0 {
      TailTokens(s[1..]);
      assert s == [s[0]] + s[1..];
      if s[0] == Space {
        assert Split(s) == [""] + Split(s[1..]);
      } else {
        assert Space in s <==> Space in s[1..];
        if Space !in s {
          assert Split(s[1..]) == [s[1..]];
        }
      }
    }
  }

  /** `split(" ").slice(1).join(" ")` is the text after the first space. */
  lemma RestIsAfterFirstSpace(s: string)
    ensures Join(Split(s)[1..]) == AfterFirstSpace(s)
  {
    TailTokens(s);
    if Space in s {
      JoinSplit(AfterFirstSpace(s));
    } else {
      NoSpaceNothingAfter(s);
    }
  }

  lemma {:induction false} NoSpaceNothingAfter(s: string)
    requires Space !in s
    ensures AfterFirstSpace(s) == ""
    decreases |s|
  {
    if |s| > 0 {
      assert s[0] != Space;
      assert Space !in s[1..] by {
        assert forall k :: 0 <= k < |s[1..]| ==> s[1..][k] == s[k + 1];
      }
      NoSpaceNothingAfter(s[1..]);
    }
  }

  /** `split(" ")[1]`: undefined without a space, else the word that follows the first space. */
  lemma SecondToken(s: string)
    ensures Token(Split(s), 1) == if Space in s then Some(FirstWord(AfterFirstSpace(s))) else None
  {
    TailTokens(s);
    if Space in s {
      FirstTokenIsFirstWord(AfterFirstSpace(s));
      assert Split(s)[1] == Split(s)[1..][0];
    }
  }
}

=== FILE: wrappers.dfy ===
/** The optional value used throughout the model for JavaScript's `undefined`. */
module Wrappers {

  /** `None` plays the part of `undefined`; `Some(v)` a defined value. */
  datatype Option<+T> = None | Some(value: T)
}
